=== FILE: README.md ===
# Findme backend: a verified model

Findme is a lost-and-found service. Users post lost or found items, other
users claim them, and the two parties talk in a chat thread about the item.
Notifications tell users about new messages. A second, separate mechanism
records "match" requests against items. An admin can see statistics, users
and items, and can delete any item.

This project models the Express/Mongoose backend's domain logic as pure
functions over one immutable database value (`Store.Store`):

- id-keyed maps of items (with their embedded claims), chats, messages,
  notifications, match requests and users;
- one id counter `nextId`, used by every collection;
- a monotone `clock` that stands for Mongoose's timestamps.

Each handler takes the database and the authenticated caller's id, and
returns a `Reply`: the database afterwards plus either a value or an error.
The errors are `NotFound` (404), `BadRequest` (400), `Forbidden` (403) and
`ServerError` (500). The model keeps both parts of a `Reply` because two
handlers leave writes behind and then fail.

Mongoose behaviour the handlers depend on is modelled explicitly:

- Schema validation is a predicate checked on save (`ItemModel.ItemValid`,
  `ItemModel.ClaimValid`, `MatchModel.MatchValid`). A document that fails
  it is not written, and the handler answers 500.
- A save writes, and stamps `updatedAt`, only when the document was
  modified. So a second resolve of an item, or a second accept of a match,
  changes nothing.
- `findByIdAndUpdate` always stamps `updatedAt`.
- A query without `sort` is taken to return documents in ascending id
  order, which is insertion order. MongoDB itself promises no order here;
  this is a choice of the model.

`Store.Valid` is the invariant every reachable database satisfies:

- each document, users included, sits under its own id;
- every id of an item, chat, message, notification or match is below the
  counter (users are created outside the modelled handlers);
- every `updatedAt` of an item, chat or match is in the past;
- every stored item and match passed its schema.

Every handler that writes is proved to preserve it.

The model follows the code, including where it is surprising:

- Item status is not monotone in the claim logic. The claim sets `matched`
  whatever the current status is. As written the claim never saves (see
  Findings), so only the corrected claim takes a resolved item back to
  `matched`.
- The claim handler answers 400, not 403, when the owner claims their own
  item.
- Reading a chat's messages sets the reader's unread count to 0 even when
  the reader is not a participant. That adds a key to `unreadCounts`.
- The claim handler never succeeds. The match handler stores the match and
  then fails whenever the request passes its duplicate and type checks. See
  Findings.

Files:

- `basics.dfy`: optional fields, errors, ids, decimal spelling of ids;
  listing, `findOne` search and sorting of id-keyed collections.
- `models.dfy`: item and claim, chat and message, match, and notification
  records.
- `store.dfy`: the database, its invariant, and save/create helpers.
- `item_controller.dfy`, `chat_controller.dfy`, `notification_routes.dfy`,
  `matching_controller.dfy`, `admin_controller.dfy`: one module per source
  file.

## Model

| member | source | states |
|---|---|---|
| ItemController.CreateItem | BACKEND/controllers/itemController.js:6-28 | A missing or empty title, description, location or type gives 400 and no write. A type other than lost/found fails the schema and gives 500 and no write. Otherwise a new item is stored under a fresh id that no stored item uses. It is owned by the caller, `pending`, has no claims, and its image is the uploaded file or none. The invariant is kept. |
| ItemController.GetSingleItem | BACKEND/controllers/itemController.js:33-50 | A missing item gives 404. An item whose owner's user document is gone gives 500, because the populated owner is null. A non-owner gets 403. The item comes back exactly when the caller owns it. |
| ItemModel.InvalidClaimFailsItem | BACKEND/models/item.js:3-26 | An item holding a claim without a message, or with a claim type other than lost/found, fails the schema, whatever its other claims. |
| ItemController.ClaimItem | BACKEND/controllers/itemController.js:85-118 | As written: a missing item gives 404. The owner gets 400. A user who already has a claim of any status gets 400. In every other case the save fails the claim schema and gives 500. No case changes the database. |
| ItemController.ClaimItemWithMessage | BACKEND/controllers/itemController.js:85-118 | Same refusals as the handler, each leaving the database unchanged. A claim with an invalid type or no message gives 500. Otherwise exactly one pending claim is appended, carrying the caller, type and message, and earlier claims are unchanged. Status becomes `matched` whatever it was, `resolved` included. No other item changes. The invariant is kept. |
| ItemController.RepeatClaimRejected | BACKEND/controllers/itemController.js:96-102 | After a stored claim by a user, any further claim by that user on that item gives 400 and writes nothing. |
| ItemController.ClaimScenario | BACKEND/controllers/itemController.js:104-112 | A lost wallet claimed as found by another user: the handler as written answers 500. The variant with a message yields the one-claim, `matched` item. |
| ItemController.ResolveItem | BACKEND/controllers/itemController.js:123-140 | A missing item gives 404 and a non-owner gets 403, with no write. For the owner the status becomes `resolved`, the claims are untouched, and nothing else in the database changes. |
| ItemController.ResolveItemIdempotent | BACKEND/controllers/itemController.js:125-136 | Resolving again returns the same item and the same database. |
| ItemController.UpdateItem | BACKEND/controllers/itemController.js:145-170 | Owner only: 404 or 403 with no write. A missing or invalid type fails the schema and gives 500. Otherwise title, description, location, contact and type are overwritten, a missing value included. The image is replaced only when a file is uploaded. Status, claims, owner and id are unchanged. |
| ItemController.DeleteItem | BACKEND/controllers/itemController.js:175-190 | 404 for a missing item and 403 for a non-owner, both with no write. For the owner exactly that item is removed. |
| ChatModel.FirstOther | BACKEND/controllers/chatController.js:79 | The index of the first participant who is not the sender: every earlier participant is the sender. |
| ChatController.GetOrCreateChat | BACKEND/controllers/chatController.js:8-35 | The returned chat concerns the item and lists both users. If such a chat exists, the lowest-id one (the model's choice among several) comes back unchanged and nothing is written. Otherwise one chat is created with participants `[caller, other]`, both counts 0 and `lastMessage` `""`. At most one chat is added. The invariant is kept. |
| ChatController.GetOrCreateChatIdempotent | BACKEND/controllers/chatController.js:13-28 | Calling again with the same item and users, in either order, returns the same chat and writes nothing. |
| ChatController.ChatMessages | BACKEND/controllers/chatController.js:45-47 | Exactly the chat's messages, oldest first. In a valid database each is listed once. |
| ChatController.GetMessages | BACKEND/controllers/chatController.js:40-59 | Always answers success, a missing chat included. The answer is the chat's messages, oldest first, each once in a valid database. For an existing chat only the viewer's count changes, to 0, and `updatedAt` is stamped. Every other field of that chat, every other chat and every other collection stays. A missing chat is left alone. The invariant is kept. |
| ChatController.MarkChatRead | BACKEND/controllers/chatController.js:49-52 | For an existing chat the viewer's count becomes 0, every other count stays, and `updatedAt` is stamped. A missing chat is left alone. |
| ChatController.SendMessage | BACKEND/controllers/chatController.js:64-100 | The message is stored under a fresh id in every case. The answer is that message or a 500. Items, matches and users are untouched. |
| ChatController.ReceiverOf | BACKEND/controllers/chatController.js:79 | The receiver is a participant other than the sender, preceded only by the sender. There is none only when every participant is the sender. |
| ChatController.SendMessageToMissingChat | BACKEND/controllers/chatController.js:70-79 | A send into a missing chat keeps the stored message and answers 500. |
| ChatController.SendMessageDelivers | BACKEND/controllers/chatController.js:79-93 | The receiver's count goes up by exactly 1, a missing entry counting as 0. Every other count, the sender's included, stays. `lastMessage` becomes the text and `updatedAt` is stamped. Exactly one notification is added: unread, for the receiver, linking to `/chat/<id>`. |
| ChatController.SendMessageWithoutReceiver | BACKEND/controllers/chatController.js:79-93 | With no participant besides the sender: the counts are unchanged, `lastMessage` is set, no notification is stored, and the answer is 500. Other chats, items, matches and users are untouched. |
| ChatController.SendMessageKeepsValid | BACKEND/controllers/chatController.js:64-100 | Sending keeps the database invariant. |
| ChatController.GetMyChats | BACKEND/controllers/chatController.js:105-119 | Exactly the chats listing the caller, most recently updated first. In a valid database each is listed once. |
| ChatController.UnreadChatCount | BACKEND/controllers/chatController.js:124-140 | The loop over the caller's chats returns the sum of the caller's counts over every chat listing the caller, a missing entry counting as 0. |
| ChatController.SumOverSelectedChats | BACKEND/controllers/chatController.js:128-133 | Summing over the chats the query returns equals the key-wise total. |
| ChatController.SendMessageRaisesReceiverTotal | BACKEND/controllers/chatController.js:82-83 | After a delivered message the receiver's unread total is one higher, and every other user's total is unchanged. |
| ChatController.GetMessagesClearsViewerShare | BACKEND/controllers/chatController.js:50-52 | Reading a chat takes exactly that chat's count off the viewer's total and leaves every other user's total unchanged. |
| NotificationRoutes.ListUnread | BACKEND/routes/notificationRoutes.js:7-19 | Exactly the caller's notifications with `isRead` false, newest first. In a valid database each is listed once. |
| NotificationRoutes.MarkRead | BACKEND/routes/notificationRoutes.js:22-30 | Always answers success. An unknown id changes nothing. Otherwise only that notification changes, and it becomes read. There is no ownership check. |
| NotificationRoutes.MarkReadIdempotent | BACKEND/routes/notificationRoutes.js:24 | Marking again, by any caller, changes nothing. |
| NotificationRoutes.MarkReadLeavesUnreadList | BACKEND/routes/notificationRoutes.js:9-12 | After marking, no entry of its owner's unread list carries the marked id, and the owner's other unread notifications are still listed. |
| NotificationRoutes.CreateNotification | BACKEND/routes/notificationRoutes.js:33-53 | A missing recipient or an empty message gives 400 and no write. Otherwise one unread notification is stored under a fresh id. Its link defaults to `/dashboard`. The invariant is kept. |
| NotificationRoutes.CreatedNotificationIsListed | BACKEND/routes/notificationRoutes.js:9-12 | A created notification appears in its recipient's unread list. |
| MatchingController.CreateMatch | BACKEND/controllers/matchingControllers.js:7-28 | A duplicate (item, caller, type) gives 400 and no write. An unknown type fails the schema: 500, no write. Otherwise one pending match is stored, no notification is created, and the answer is 500. Items are untouched. The invariant is kept. |
| MatchingController.RetryAfterFailedCreateIsDuplicate | BACKEND/controllers/matchingControllers.js:13-17 | The match a failed create leaves behind makes the same request a duplicate. |
| MatchingController.TypeIsPartOfTheKey | BACKEND/controllers/matchingControllers.js:13 | A request of one type never makes a request of another type a duplicate. So a user may hold one match of each type on an item. |
| MatchingController.NoUniqueIndex | BACKEND/models/matching.js:4-28 | A valid database may hold two matches with the same item, user and type. |
| MatchingController.CreateMatchNotifyingOwner | BACKEND/controllers/matchingControllers.js:17-24 | Corrected create. A duplicate gives 400, a missing item 404, an unknown type 500, each with no write. Otherwise the pending match is returned, and exactly one unread notification goes to the item's owner, linking to `/dashboard`. Items, users, chats and messages are untouched. |
| MatchingController.GetMyItemMatches | BACKEND/controllers/matchingControllers.js:31-48 | Exactly the matches whose item is owned by the caller. In a valid database each is listed once. |
| MatchingController.AcceptMatch | BACKEND/controllers/matchingControllers.js:51-65 | A missing match gives 404. Otherwise its status becomes `accepted` and nothing else in the database changes, items and claims included. No caller check. |
| MatchingController.AcceptMatchIdempotent | BACKEND/controllers/matchingControllers.js:55-61 | Accepting again, by any caller, returns the same match and the same database. |
| AdminController.GetStats | BACKEND/controllers/adminContoller.js:4-11 | Counts of users, items, lost items and found items. Each kind count is at most the item count. In a valid database lost + found equals the item count. |
| AdminController.KindCountsBounded | BACKEND/controllers/adminContoller.js:6-8 | Lost and found items are disjoint. Together they are every item when every item passed the schema. |
| AdminController.GetAllUsers | BACKEND/controllers/adminContoller.js:13-16 | One entry per user, the password removed from each. Every user appears, and nothing else does. In a valid database each user is listed once. |
| AdminController.GetAllItems | BACKEND/controllers/adminContoller.js:18-23 | Every item and only items, newest `createdAt` first. In a valid database each is listed once. |
| AdminController.DeleteItem | BACKEND/controllers/adminContoller.js:25-28 | Always answers success. Exactly that id is gone from the items, whoever owned it and whether or not it existed. Everything else is unchanged, chats and matches about it included. |

## Left out

- Authentication: the caller's id is a parameter. Express routing, the auth middleware and HTTP framing are not modelled.
- Image upload: the uploaded file is an optional file name.
- Populate projections: responses carry ids, not the names and emails of referenced users. The one exception is the null owner that breaks `getSingleItem`.
- Malformed ids: the cast errors these cause are not modelled. Persistence failures, which the `catch` blocks turn into 500, are not modelled either.
- Missing body fields of the chat and match endpoints (`itemId`, `otherUserId`, `text`, `type`): always present, because what Mongo does with an undefined query field is outside the model.
- `getAllItems` and `getMyItems` of the item handlers: not modelled. They are plain listings outside the claim, chat and match logic.
- Admin claim listing, claim approval and rejection, and admin chat views: the admin routes import `getAllClaims`, `updateClaimStatus`, `getAllChats` and `getChatMessages`, but `adminContoller.js` does not define them. There is no code to model, so no approve/reject transition exists here.
- `BACKEND/models/Claim.js`: a standalone schema that no handler uses.
- The Message and Notification schemas are not part of this model. Only the fields the handlers use are modelled.
- SendMessageWithoutReceiver: assumes the Notification schema requires `userId`, so creating a notification with no recipient fails.
- SendMessageDelivers: assumes the Notification schema defaults `isRead` to false. The message handler's `Notification.create` does not pass it, and the schema is not part of this model.
- Map bracket access: `sendMessage` writes `chat.unreadCounts[receiverId]` and the unread total reads `chat.unreadCounts[userId]`. On a Mongoose Map these bracket accesses may not see or persist the stored entries. The model gives `unreadCounts` its intended key-to-count meaning.
- Concurrency: operations run one at a time. Read-modify-write races on claims and unread counts are not modelled.
- Timestamps: time is the counter `clock`, so no two writes share a timestamp.
- Ordering: the order `find()` returns users in is left open, so GetAllUsers is a method that may list them in any order.
- GetMyChats: completeness (every matching chat is listed) and listing each chat once are proved only for a database satisfying `Store.Valid`, where every id is below the counter and every document carries its own id. The same holds for ListUnread, ChatMessages, GetMessages, GetMyItemMatches and GetAllItems. Soundness and order hold for every database.
- GetOrCreateChat: that an existing chat comes back unchanged is proved for a database satisfying `Store.Valid`.
- GetOrCreateChat: when several chats match the lookup, the model returns the one with the lowest id. The `findOne` it models returns whichever the database yields first, which MongoDB does not fix. Several matching chats can exist: a chat with participants `[u, u]` and one with `[u, v]` on the same item both match a later lookup for `u` with `u`.
- GetStats: lost + found = items is proved only for a database satisfying `Store.Valid`, where every item passed the type enum.

## Findings

| source | as written | input that shows it | evidently intended | confidence | as-written member | corrected member |
|---|---|---|---|---|---|---|
| BACKEND/controllers/itemController.js:104-112 | The claim is pushed as `{ user, claimType }` with no `message`, but the claim schema requires `message` (BACKEND/models/item.js:15-18). So `item.save()` always fails validation and the handler answers 500. | Any item, claimed by a user who is not its owner and has no claim on it yet. For example, user 2 claims user 1's lost wallet as `found`. | The claim carries the claimant's message and is saved, and the item becomes `matched`. | not executed; high | ItemController.ClaimItem | ItemController.ClaimItemWithMessage |
| BACKEND/controllers/matchingControllers.js:17-23 | After `Match.create`, the owner notification reads `item.userId`, but no `item` is bound in the handler. The ReferenceError makes the handler answer 500 with the match already stored and no notification created. A retry is then refused as a duplicate. | Any item, with a user making their first request of type `lost` on it. | Load the item and send one notification to its owner. | not executed; high | MatchingController.CreateMatch | MatchingController.CreateMatchNotifyingOwner |

=== FILE: admin_controller.dfy ===
/** The admin handlers: statistics, all users without passwords, all items
    newest first, and deletion of any item. */
module AdminController {
  import opened Basics
  import opened Collections
  import opened ItemModel
  import opened Store

  datatype Stats = Stats(users: nat, items: nat, lost: nat, found: nat)

  /** The ids of the items whose type is `kind`: `countDocuments({ type })`. */
  function ItemsOfKind(s: Store, kind: string): set<Id> {
    set k | k in s.items && s.items[k].kind == Some(kind)
  }

  /** Counts of users and items, and of lost and found items. Because every
      stored item's type is lost or found, the last two add up to the second. */
  function GetStats(s: Store): (r: Stats)
    ensures r.users == |s.users| && r.items == |s.items|
    ensures r.lost == |ItemsOfKind(s, "lost")| && r.found == |ItemsOfKind(s, "found")|
    ensures r.lost <= r.items && r.found <= r.items
    ensures Valid(s) ==> r.lost + r.found == r.items
  {
    KindCountsBounded(s);
    Stats(|s.users|, |s.items|, |ItemsOfKind(s, "lost")|, |ItemsOfKind(s, "found")|)
  }

  /** Lost and found items are disjoint, and together they are every item
      when every item passed the schema. */
  lemma KindCountsBounded(s: Store)
    ensures |ItemsOfKind(s, "lost")| <= |s.items| && |ItemsOfKind(s, "found")| <= |s.items|
    ensures Valid(s) ==> |ItemsOfKind(s, "lost")| + |ItemsOfKind(s, "found")| == |s.items|
  {
    var lost := ItemsOfKind(s, "lost");
    var found := ItemsOfKind(s, "found");
    assert lost <= s.items.Keys && found <= s.items.Keys;
    assert lost * found == {};
    assert |lost + found| == |lost| + |found|;
    SubsetSize(lost + found, s.items.Keys);
    SubsetSize(lost, s.items.Keys);
    SubsetSize(found, s.items.Keys);
    if Valid(s) {
      forall k | k in s.items
        ensures k in lost + found
      {
        assert KindGiven(s.items[k].kind);
      }
      assert lost + found == s.items.Keys;
    }
  }

  /** A user as listed to the admin: every field but the password. */
  datatype UserView = UserView(id: Id, name: string, email: string, role: string)

  function View(u: User): UserView {
    UserView(u.id, u.name, u.email, u.role)
  }

  /** The listing of every user a `find().select("-password")` can produce. */
  function Views(s: Store): set<UserView> {
    set k | k in s.users :: View(s.users[k])
  }

  /** Every user once, password removed, in whatever order the store yields. */
  method GetAllUsers(s: Store) returns (r: seq<UserView>)
    ensures |r| == |s.users|
    ensures forall k :: k in s.users ==> View(s.users[k]) in r
    ensures forall i :: 0 <= i < |r| ==> r[i] in Views(s)
    ensures Valid(s) ==> Distinct(r)
  {
    var left := s.users.Keys;
    r := [];
    while left != {}
      invariant left <= s.users.Keys
      invariant |r| + |left| == |s.users|
      invariant forall k :: k in s.users && k !in left ==> View(s.users[k]) in r
      invariant forall i :: 0 <= i < |r| ==> r[i] in Views(s)
      invariant Valid(s) ==> forall i :: 0 <= i < |r| ==> r[i].id in s.users && r[i].id !in left
      invariant Valid(s) ==> Distinct(r)
      decreases |left|
    {
      var k :| k in left;
      r := r + [View(s.users[k])];
      left := left - {k};
    }
  }

  /** Every item, newest first. */
  function GetAllItems(s: Store): (r: seq<Item>)
    ensures forall i :: 0 <= i < |r| ==> r[i] in s.items.Values
    ensures Valid(s) ==> forall k :: k in s.items ==> s.items[k] in r
    ensures forall i, j :: 0 <= i < j < |r| ==> r[i].createdAt >= r[j].createdAt
    ensures Valid(s) ==> Distinct(r)
  {
    SortDesc(Select(s.items, s.nextId, (it: Item) => true), (it: Item) => it.createdAt)
  }

  /** Delete any item by id: no ownership check and no existence check, and
      the answer is always success. Chats and match requests that name the
      item stay. */
  function DeleteItem(s: Store, id: Id): (r: Reply<()>)
    ensures r.result == Ok(())
    ensures id !in r.store.items
    ensures r.store.items.Keys == s.items.Keys - {id}
    ensures forall k :: k in r.store.items ==> r.store.items[k] == s.items[k]
    ensures r.store == s.(items := r.store.items)
    ensures Valid(s) ==> Valid(r.store)
  {
    Reply(s.(items := s.items - {id}), Ok(()))
  }
}

=== FILE: basics.dfy ===
/** Values shared by every part of the backend: optional request fields, the
    error kinds a handler answers with, and document ids. */
module Basics {

  /** A request-body field or a nullable document field. */
  datatype Option<+T> = None | Some(value: T)

  /** The failure kinds the handlers answer with, by HTTP status:
      404, 400, 403, and 500 for everything the `catch` blocks turn into a
      server error (schema validation, a TypeError, a ReferenceError). */
  datatype Error = NotFound | BadRequest | Forbidden | ServerError

  datatype Result<+T> = Ok(value: T) | Err(error: Error)

  /** Document ids are opaque; they are drawn from one counter. */
  type Id = nat

  /** A string field that JavaScript treats as truthy: present and non-empty.
      Mongoose's `required` validator on a String path rejects the same values. */
  predicate Given(s: Option<string>) {
    s.Some? && s.value != ""
  }

  /** The two-valued enumeration used by items, claims and matches. */
  predicate IsKind(s: string) {
    s == "lost" || s == "found"
  }

  /** A required enum field: present and one of the enumeration's values. */
  predicate KindGiven(s: Option<string>) {
    s.Some? && IsKind(s.value)
  }

  function DigitChar(d: nat): (c: char)
    requires d < 10
    ensures '0' <= c <= '9'
  {
    "0123456789"[d]
  }

  /** The decimal spelling of an id, as it appears inside a link. */
  function Decimal(n: nat): (r: string)
    ensures |r| > 0
    ensures forall i :: 0 <= i < |r| ==> '0' <= r[i] <= '9'
    decreases n
  {
    if n < 10 then [DigitChar(n)] else Decimal(n / 10) + [DigitChar(n % 10)]
  }
}

/** Listing and ordering of id-keyed collections. Ids are drawn from a
    counter, so walking the keys upward visits documents in insertion order,
    which is the natural order of a query without `sort`. */
module Collections {
  import opened Basics

  /** No value occurs twice. */
  ghost predicate Distinct<T>(xs: seq<T>) {
    forall i, j :: 0 <= i < j < |xs| ==> xs[i] != xs[j]
  }

  /** Distinct keys hold distinct values, as when every document carries its
      own id. */
  ghost predicate Injective<V>(m: map<nat, V>) {
    forall a, b :: a in m && b in m && a != b ==> m[a] != m[b]
  }

  /** `v` is stored in `m` under some key below `n`. */
  ghost predicate StoredBelow<V>(m: map<nat, V>, n: nat, v: V) {
    exists k :: k in m && k < n && m[k] == v
  }

  /** The values of `m` under keys below `n` that satisfy `p`, in key order,
      each key contributing once. */
  function Select<V(==)>(m: map<nat, V>, n: nat, p: V -> bool): (r: seq<V>)
    ensures forall i :: 0 <= i < |r| ==> r[i] in m.Values && p(r[i])
    ensures forall i :: 0 <= i < |r| ==> StoredBelow(m, n, r[i])
    ensures forall k :: k in m && k < n && p(m[k]) ==> m[k] in r
    ensures Injective(m) ==> Distinct(r)
    decreases n
  {
    if n == 0 then []
    else
      var prefix := Select(m, n - 1, p);
      if n - 1 in m && p(m[n - 1]) then
        prefix + [m[n - 1]]
      else prefix
  }

  /** The lowest key below `n` whose value satisfies `p`: the document a
      `findOne` returns. */
  function FindFirst<V>(m: map<nat, V>, lo: nat, n: nat, p: V -> bool): (r: Option<nat>)
    ensures r.Some? ==> lo <= r.value < n && r.value in m && p(m[r.value])
    ensures r.Some? ==> forall j :: lo <= j < r.value && j in m ==> !p(m[j])
    ensures r.None? ==> forall j :: lo <= j < n && j in m ==> !p(m[j])
    decreases n - lo
  {
    if lo >= n then None
    else if lo in m && p(m[lo]) then Some(lo)
    else FindFirst(m, lo + 1, n, p)
  }

  predicate Ascending<T>(xs: seq<T>, key: T -> int) {
    forall i, j :: 0 <= i < j < |xs| ==> key(xs[i]) <= key(xs[j])
  }

  predicate Descending<T>(xs: seq<T>, key: T -> int) {
    forall i, j :: 0 <= i < j < |xs| ==> key(xs[i]) >= key(xs[j])
  }

  function Insert<T>(x: T, xs: seq<T>, key: T -> int): (r: seq<T>)
    requires Ascending(xs, key)
    ensures Ascending(r, key)
    ensures multiset(r) == multiset(xs) + multiset{x}
    ensures |r| == |xs| + 1
    ensures r[0] == x || (|xs| > 0 && r[0] == xs[0])
  {
    if xs == [] || key(x) <= key(xs[0]) then [x] + xs
    else
      var rest := Insert(x, xs[1..], key);
      assert xs == [xs[0]] + xs[1..];
      [xs[0]] + rest
  }

  /** Inserting a new value into a list without repeats gives a list without
      repeats. */
  lemma {:induction false} InsertKeepsDistinct<T>(x: T, xs: seq<T>, key: T -> int)
    requires Ascending(xs, key) && Distinct(xs) && x !in xs
    ensures Distinct(Insert(x, xs, key))
  {
    if xs != [] && key(x) > key(xs[0]) {
      var rest := Insert(x, xs[1..], key);
      assert x !in xs[1..];
      InsertKeepsDistinct(x, xs[1..], key);
      if xs[0] in rest {
        assert xs[0] in multiset(rest);
        assert xs[0] in multiset(xs[1..]);
        var j :| 0 <= j < |xs[1..]| && xs[1..][j] == xs[0];
        assert xs[j + 1] == xs[0];
      }
    }
  }

  /** Insertion sort: a permutation of `xs` in ascending `key` order. */
  function SortAsc<T>(xs: seq<T>, key: T -> int): (r: seq<T>)
    ensures Ascending(r, key)
    ensures multiset(r) == multiset(xs)
    ensures forall i :: 0 <= i < |r| ==> r[i] in xs
    ensures forall i :: 0 <= i < |xs| ==> xs[i] in r
    ensures Distinct(xs) ==> Distinct(r)
  {
    if xs == [] then []
    else
      assert xs == [xs[0]] + xs[1..];
      var sorted := SortAsc(xs[1..], key);
      var r := Insert(xs[0], sorted, key);
      assert Distinct(xs) ==> Distinct(r) by {
        if Distinct(xs) {
          assert Distinct(xs[1..]);
          assert xs[0] !in sorted;
          InsertKeepsDistinct(xs[0], sorted, key);
        }
      }
      PermutationKeepsElements(r, xs);
      r
  }

  lemma PermutationKeepsElements<T>(a: seq<T>, b: seq<T>)
    requires multiset(a) == multiset(b)
    ensures forall i :: 0 <= i < |a| ==> a[i] in b
    ensures forall i :: 0 <= i < |b| ==> b[i] in a
  {
    forall i | 0 <= i < |a|
      ensures a[i] in b
    {
      assert a[i] in multiset(a);
    }
    forall i | 0 <= i < |b|
      ensures b[i] in a
    {
      assert b[i] in multiset(b);
    }
  }

  /** A permutation of `xs` in descending `key` order: the `sort({ f: -1 })` of a query. */
  function SortDesc<T>(xs: seq<T>, key: T -> int): (r: seq<T>)
    ensures Descending(r, key)
    ensures multiset(r) == multiset(xs)
    ensures forall i :: 0 <= i < |r| ==> r[i] in xs
    ensures forall i :: 0 <= i < |xs| ==> xs[i] in r
    ensures Distinct(xs) ==> Distinct(r)
  {
    var r := SortAsc(xs, x => -key(x));
    PermutationKeepsElements(r, xs);
    r
  }

  /** A subset is no larger than its superset. */
  lemma {:induction false} SubsetSize<T>(a: set<T>, b: set<T>)
    requires a <= b
    ensures |a| <= |b|
    decreases |a|
  {
    if a != {} {
      var x :| x in a;
      SubsetSize(a - {x}, b - {x});
    }
  }
}

=== FILE: chat_controller.dfy ===
/** The conversation handlers: find-or-create a chat, read its messages
    (which marks them read for the viewer), send a message, list the
    caller's chats and total the caller's unread counts. */
module ChatController {
  import opened Basics
  import opened Collections
  import opened ChatModel
  import opened NotificationModel
  import opened Store

  const NewMessageText := "You have a new chat message"

  /** The link a chat-message notification carries. */
  function ChatLink(chatId: Id): string {
    "/chat/" + Decimal(chatId)
  }

  /** The filter `{ participants: u }`. */
  function ListsUser(u: Id): Chat -> bool {
    (c: Chat) => u in c.participants
  }

  /** The chat a `findOne` on item and both participants returns. */
  function FindChat(s: Store, itemId: Id, a: Id, b: Id): Option<Id> {
    FindFirst(s.chats, 0, s.nextId, (c: Chat) => Joins(c, itemId, a, b))
  }

  /** Return the first chat about `itemId` that lists both users, in either
      order, untouched; create one when there is none. */
  function GetOrCreateChat(s: Store, caller: Id, itemId: Id, other: Id): (r: Reply<Chat>)
    ensures r.result.Ok? && Joins(r.result.value, itemId, caller, other)
    ensures Valid(s) ==> forall k :: k in s.chats && Joins(s.chats[k], itemId, caller, other) ==>
      && r.store == s
      && r.result.value.id <= k
      && r.result.value.id in s.chats
      && r.result.value == s.chats[r.result.value.id]
    ensures (forall k :: k in s.chats && k < s.nextId ==> !Joins(s.chats[k], itemId, caller, other)) ==>
      && r.result.value == Chat(s.nextId, itemId, [caller, other], Some(""),
                                map[caller := 0, other := 0], s.clock, s.clock)
      && r.store == s.(chats := s.chats[s.nextId := r.result.value],
                       nextId := s.nextId + 1, clock := s.clock + 1)
    ensures r.store.chats.Keys <= s.chats.Keys + {s.nextId}
    ensures Valid(s) ==> Valid(r.store)
  {
    var found := FindChat(s, itemId, caller, other);
    if found.Some? then Reply(s, Ok(s.chats[found.value]))
    else
      var c := Chat(s.nextId, itemId, [caller, other], Some(""), map[caller := 0, other := 0], s.clock, s.clock);
      Reply(s.(chats := s.chats[c.id := c], nextId := s.nextId + 1, clock := s.clock + 1), Ok(c))
  }

  /** Asking again for the same item and pair, in either order, returns the
      same chat and writes nothing: one call creates at most one chat. */
  lemma GetOrCreateChatIdempotent(s: Store, a: Id, itemId: Id, b: Id)
    ensures var r := GetOrCreateChat(s, a, itemId, b);
            && GetOrCreateChat(r.store, a, itemId, b) == r
            && GetOrCreateChat(r.store, b, itemId, a) == r
  {
    var r := GetOrCreateChat(s, a, itemId, b);
    var first := FindChat(s, itemId, a, b);
    if first.Some? {
      var again := FindChat(s, itemId, b, a);
      assert Joins(s.chats[first.value], itemId, b, a);
      assert again.Some?;
      assert Joins(s.chats[again.value], itemId, a, b);
    } else {
      var s1 := r.store;
      assert s1.chats[s.nextId] == r.result.value;
      forall j | 0 <= j < s.nextId && j in s1.chats
        ensures !Joins(s1.chats[j], itemId, a, b) && !Joins(s1.chats[j], itemId, b, a)
      {
        assert s1.chats[j] == s.chats[j];
      }
    }
  }

  /** The `find({ chatId })` of the read handler, sorted oldest first. */
  function ChatMessages(s: Store, chatId: Id): (r: seq<Message>)
    ensures forall i :: 0 <= i < |r| ==> r[i] in s.messages.Values && r[i].chatId == chatId
    ensures Valid(s) ==> forall k :: k in s.messages && s.messages[k].chatId == chatId ==> s.messages[k] in r
    ensures forall i, j :: 0 <= i < j < |r| ==> r[i].createdAt <= r[j].createdAt
    ensures Valid(s) ==> Distinct(r)
  {
    SortAsc(Select(s.messages, s.nextId, (m: Message) => m.chatId == chatId), (m: Message) => m.createdAt)
  }

  /** The `$set` of the viewer's unread count to 0. When the chat exists only
      the viewer's count changes, and `updatedAt` is stamped even when the
      count was already 0. The viewer need not be a participant; a missing
      chat is left alone. */
  function MarkChatRead(s: Store, chatId: Id, viewer: Id): (r: Store)
    ensures chatId !in s.chats ==> r == s
    ensures chatId in s.chats ==>
      && chatId in r.chats
      && Unread(r.chats[chatId], viewer) == 0
      && (forall u :: u != viewer ==> Unread(r.chats[chatId], u) == Unread(s.chats[chatId], u))
      && r.chats[chatId] == s.chats[chatId].(unreadCounts := r.chats[chatId].unreadCounts, updatedAt := s.clock)
      && r == s.(chats := s.chats[chatId := r.chats[chatId]], clock := s.clock + 1)
    ensures Valid(s) ==> Valid(r)
  {
    if chatId !in s.chats then s
    else
      var c := s.chats[chatId];
      var read := c.(unreadCounts := c.unreadCounts[viewer := 0], updatedAt := s.clock);
      s.(chats := s.chats[chatId := read], clock := s.clock + 1)
  }

  /** The read handler: the chat's messages, and the viewer's count reset.
      A missing chat is not an error. */
  function GetMessages(s: Store, chatId: Id, viewer: Id): (r: Reply<seq<Message>>)
    ensures r.result.Ok?
    ensures forall i :: 0 <= i < |r.result.value| ==>
      r.result.value[i] in s.messages.Values && r.result.value[i].chatId == chatId
    ensures Valid(s) ==> forall k :: k in s.messages && s.messages[k].chatId == chatId ==>
      s.messages[k] in r.result.value
    ensures Valid(s) ==> Distinct(r.result.value)
    ensures forall i, j :: 0 <= i < j < |r.result.value| ==>
      r.result.value[i].createdAt <= r.result.value[j].createdAt
    ensures r.store.messages == s.messages && r.store.notifications == s.notifications
    ensures chatId !in s.chats ==> r.store == s
    ensures chatId in s.chats ==>
      && chatId in r.store.chats
      && Unread(r.store.chats[chatId], viewer) == 0
      && (forall u :: u != viewer ==> Unread(r.store.chats[chatId], u) == Unread(s.chats[chatId], u))
      && (forall k :: k in s.chats && k != chatId ==> k in r.store.chats && r.store.chats[k] == s.chats[k])
      && r.store.chats[chatId].unreadCounts == s.chats[chatId].unreadCounts[viewer := 0]
      && r.store.chats[chatId] == s.chats[chatId].(unreadCounts := r.store.chats[chatId].unreadCounts,
                                                   updatedAt := s.clock)
      && r.store == s.(chats := s.chats[chatId := r.store.chats[chatId]], clock := s.clock + 1)
    ensures Valid(s) ==> Valid(r.store)
  {
    Reply(MarkChatRead(s, chatId, viewer), Ok(ChatMessages(s, chatId)))
  }

  /** Send a message. The message is stored first, whatever follows; the
      answer is the stored message or a server error. */
  function SendMessage(s: Store, chatId: Id, sender: Id, text: string): (r: Reply<Message>)
    ensures s.nextId in r.store.messages
    ensures r.store.messages == s.messages[s.nextId := Message(s.nextId, chatId, sender, text, s.clock)]
    ensures r.result == Ok(r.store.messages[s.nextId]) || r.result == Err(ServerError)
    ensures r.store.items == s.items && r.store.matches == s.matches && r.store.users == s.users
  {
    var msg := Message(s.nextId, chatId, sender, text, s.clock);
    var s1 := PostMessage(s, chatId, sender, text);
    if chatId !in s1.chats then Reply(s1, Err(ServerError))
    else
      var c := s1.chats[chatId];
      var i := FirstOther(c.participants, sender);
      if i == |c.participants| then
        // No participant other than the sender: the chat is saved, then the
        // notification has no recipient and its creation fails.
        Reply(SaveChat(s1, chatId, c.(lastMessage := Some(text))), Err(ServerError))
      else
        var receiver := c.participants[i];
        var bumped := c.(unreadCounts := c.unreadCounts[receiver := Unread(c, receiver) + 1],
                         lastMessage := Some(text));
        var s2 := SaveChat(s1, chatId, bumped);
        Reply(Notify(s2, receiver, NewMessageText, ChatLink(chatId)), Ok(msg))
  }

  /** The receiver `SendMessage` picks: the first participant who is not the
      sender, when there is one. */
  function ReceiverOf(c: Chat, sender: Id): (r: Option<Id>)
    ensures r.Some? ==> r.value in c.participants && r.value != sender
    ensures r.None? ==> forall p :: p in c.participants ==> p == sender
    ensures r.Some? ==> exists i :: 0 <= i < |c.participants| && c.participants[i] == r.value
                                    && forall j :: 0 <= j < i ==> c.participants[j] == sender
  {
    var i := FirstOther(c.participants, sender);
    if i < |c.participants| then Some(c.participants[i]) else None
  }

  /** Sending into a missing chat keeps the stored message and fails when the
      handler dereferences the chat. */
  lemma SendMessageToMissingChat(s: Store, chatId: Id, sender: Id, text: string)
    requires chatId !in s.chats
    ensures SendMessage(s, chatId, sender, text)
         == Reply(s.(messages := s.messages[s.nextId := Message(s.nextId, chatId, sender, text, s.clock)],
                     nextId := s.nextId + 1, clock := s.clock + 1),
                  Err(ServerError))
  {
  }

  /** A delivered message: the receiver's count goes up by one (a missing
      entry counting as 0), every other count stays, `lastMessage` becomes
      the text, `updatedAt` is stamped, and the receiver gets exactly one new
      notification, linking to the chat. */
  lemma SendMessageDelivers(s: Store, chatId: Id, sender: Id, text: string)
    requires chatId in s.chats
    requires ReceiverOf(s.chats[chatId], sender).Some?
    ensures var receiver := ReceiverOf(s.chats[chatId], sender).value;
            var before := s.chats[chatId];
            var r := SendMessage(s, chatId, sender, text);
            && r.result.Ok?
            && chatId in r.store.chats
            && Unread(r.store.chats[chatId], receiver) == Unread(before, receiver) + 1
            && (forall u :: u != receiver ==> Unread(r.store.chats[chatId], u) == Unread(before, u))
            && r.store.chats[chatId] == before.(unreadCounts := r.store.chats[chatId].unreadCounts,
                                              lastMessage := Some(text), updatedAt := s.clock + 1)
            && r.store.chats == s.chats[chatId := r.store.chats[chatId]]
            && r.store.notifications == s.notifications[s.nextId + 1 :=
                 Notification(s.nextId + 1, receiver, NewMessageText, ChatLink(chatId), false, s.clock + 2)]
  {
    var c := s.chats[chatId];
    var receiver := ReceiverOf(c, sender).value;
    var bumped := c.(unreadCounts := c.unreadCounts[receiver := Unread(c, receiver) + 1],
                     lastMessage := Some(text));
    assert Unread(bumped, receiver) == Unread(c, receiver) + 1;
    assert bumped != c;
  }

  /** With no participant besides the sender the chat keeps its counts, only
      `lastMessage` changes, and no notification is stored. */
  lemma SendMessageWithoutReceiver(s: Store, chatId: Id, sender: Id, text: string)
    requires chatId in s.chats
    requires ReceiverOf(s.chats[chatId], sender).None?
    ensures var r := SendMessage(s, chatId, sender, text);
            && r.result == Err(ServerError)
            && chatId in r.store.chats
            && r.store.chats[chatId].unreadCounts == s.chats[chatId].unreadCounts
            && r.store.chats[chatId].lastMessage == Some(text)
            && r.store.chats == s.chats[chatId := r.store.chats[chatId]]
            && r.store.notifications == s.notifications
            && r.store.items == s.items && r.store.matches == s.matches && r.store.users == s.users
  {
  }

  /** Sending keeps the database well formed. */
  lemma SendMessageKeepsValid(s: Store, chatId: Id, sender: Id, text: string)
    requires Valid(s)
    ensures Valid(SendMessage(s, chatId, sender, text).store)
  {
    var s1 := PostMessage(s, chatId, sender, text);
    PostMessageKeepsValid(s, chatId, sender, text);
    if chatId in s.chats {
      var c := s1.chats[chatId];
      var receiver := ReceiverOf(c, sender);
      if receiver.None? {
        SaveChatKeepsValid(s1, chatId, c.(lastMessage := Some(text)));
      } else {
        var bumped := c.(unreadCounts := c.unreadCounts[receiver.value := Unread(c, receiver.value) + 1],
                         lastMessage := Some(text));
        SaveChatKeepsValid(s1, chatId, bumped);
        NotifyKeepsValid(SaveChat(s1, chatId, bumped), receiver.value, NewMessageText, ChatLink(chatId));
        assert SendMessage(s, chatId, sender, text).store == Notify(SaveChat(s1, chatId, bumped), receiver.value, NewMessageText, ChatLink(chatId));
      }
    }
  }

  /** The caller's chats, most recently updated first. */
  function GetMyChats(s: Store, user: Id): (r: seq<Chat>)
    ensures forall i :: 0 <= i < |r| ==> r[i] in s.chats.Values && user in r[i].participants
    ensures Valid(s) ==> forall k :: k in s.chats && user in s.chats[k].participants ==> s.chats[k] in r
    ensures forall i, j :: 0 <= i < j < |r| ==> r[i].updatedAt >= r[j].updatedAt
    ensures Valid(s) ==> Distinct(r)
  {
    SortDesc(Select(s.chats, s.nextId, ListsUser(user)), (c: Chat) => c.updatedAt)
  }

  /** What chat `k` adds to `u`'s unread total. */
  function Share(chats: map<Id, Chat>, k: Id, u: Id): nat {
    if k in chats && u in chats[k].participants then Unread(chats[k], u) else 0
  }

  /** `u`'s unread counts summed over the chats with ids below `n` that list
      `u`: the reference the unread-count handler is checked against. */
  function UnreadTotal(chats: map<Id, Chat>, u: Id, n: nat): nat
    decreases n
  {
    if n == 0 then 0 else UnreadTotal(chats, u, n - 1) + Share(chats, n - 1, u)
  }

  /** Sum of `u`'s unread counts over a list of chats. */
  function SumUnread(cs: seq<Chat>, u: Id): nat
    decreases |cs|
  {
    if cs == [] then 0 else SumUnread(cs[..|cs| - 1], u) + Unread(cs[|cs| - 1], u)
  }

  /** Summing over the chats a query returns equals the key-wise total. */
  lemma {:induction false} SumOverSelectedChats(chats: map<Id, Chat>, u: Id, n: nat)
    ensures SumUnread(Select(chats, n, ListsUser(u)), u) == UnreadTotal(chats, u, n)
    decreases n
  {
    if n > 0 {
      SumOverSelectedChats(chats, u, n - 1);
      var front := Select(chats, n - 1, ListsUser(u));
      var all := Select(chats, n, ListsUser(u));
      if n - 1 in chats && u in chats[n - 1].participants {
        assert all == front + [chats[n - 1]];
        assert all[..|all| - 1] == front;
        assert SumUnread(all, u) == SumUnread(front, u) + Unread(chats[n - 1], u);
      } else {
        assert all == front;
      }
    }
  }

  /** The unread-count handler: find the caller's chats and add up the
      caller's count in each, a missing entry counting as 0. */
  method UnreadChatCount(s: Store, user: Id) returns (total: nat)
    ensures total == UnreadTotal(s.chats, user, s.nextId)
  {
    var cs := Select(s.chats, s.nextId, ListsUser(user));
    total := 0;
    var i := 0;
    while i < |cs|
      invariant 0 <= i <= |cs|
      invariant total == SumUnread(cs[..i], user)
    {
      assert cs[..i + 1][..i] == cs[..i];
      total := total + Unread(cs[i], user);
      i := i + 1;
    }
    assert cs[..|cs|] == cs;
    SumOverSelectedChats(s.chats, user, s.nextId);
  }

  /** Replacing chat `k` changes the total by exactly the change in its share. */
  lemma {:induction false} UnreadTotalUpdate(chats: map<Id, Chat>, k: Id, c: Chat, u: Id, n: nat)
    requires k < n
    ensures UnreadTotal(chats[k := c], u, n) + Share(chats, k, u)
         == UnreadTotal(chats, u, n) + Share(chats[k := c], k, u)
    decreases n
  {
    if n - 1 != k {
      UnreadTotalUpdate(chats, k, c, u, n - 1);
      assert Share(chats[k := c], n - 1, u) == Share(chats, n - 1, u);
    } else {
      UnreadTotalUnchangedBelow(chats, chats[k := c], u, k);
    }
  }

  /** Totals over ids below `n` only see chats below `n`. */
  lemma {:induction false} UnreadTotalUnchangedBelow(a: map<Id, Chat>, b: map<Id, Chat>, u: Id, n: nat)
    requires forall j :: 0 <= j < n ==> Share(a, j, u) == Share(b, j, u)
    ensures UnreadTotal(a, u, n) == UnreadTotal(b, u, n)
    decreases n
  {
    if n > 0 {
      UnreadTotalUnchangedBelow(a, b, u, n - 1);
    }
  }

  /** Raising the bound past every key adds nothing to the total. */
  lemma {:induction false} UnreadTotalPastKeys(chats: map<Id, Chat>, u: Id, n: nat, m: nat)
    requires n <= m
    requires forall k :: k in chats ==> k < n
    ensures UnreadTotal(chats, u, m) == UnreadTotal(chats, u, n)
    decreases m
  {
    if m > n {
      UnreadTotalPastKeys(chats, u, n, m - 1);
    }
  }

  /** The unread total of a user over the whole database. */
  function StoreUnreadTotal(s: Store, u: Id): nat {
    UnreadTotal(s.chats, u, s.nextId)
  }

  /** After a delivered message the receiver's total unread count is one
      higher and everyone else's, the sender's included, is unchanged. */
  lemma SendMessageRaisesReceiverTotal(s: Store, chatId: Id, sender: Id, text: string)
    requires Valid(s)
    requires chatId in s.chats
    requires ReceiverOf(s.chats[chatId], sender).Some?
    ensures var receiver := ReceiverOf(s.chats[chatId], sender).value;
            var s' := SendMessage(s, chatId, sender, text).store;
            && StoreUnreadTotal(s', receiver) == StoreUnreadTotal(s, receiver) + 1
            && forall u :: u != receiver ==> StoreUnreadTotal(s', u) == StoreUnreadTotal(s, u)
  {
    SendMessageDelivers(s, chatId, sender, text);
    var s' := SendMessage(s, chatId, sender, text).store;
    var c' := s'.chats[chatId];
    assert s'.chats == s.chats[chatId := c'];
    assert forall k :: k in s'.chats ==> k < s.nextId;
    forall u
      ensures StoreUnreadTotal(s', u) + Share(s.chats, chatId, u) == StoreUnreadTotal(s, u) + Share(s'.chats, chatId, u)
    {
      UnreadTotalPastKeys(s'.chats, u, s.nextId, s'.nextId);
      UnreadTotalUpdate(s.chats, chatId, c', u, s.nextId);
    }
  }

  /** Reading a chat's messages takes exactly that chat's count off the
      viewer's total and leaves every other user's total unchanged. */
  lemma GetMessagesClearsViewerShare(s: Store, chatId: Id, viewer: Id)
    requires Valid(s)
    requires chatId in s.chats
    ensures var s' := GetMessages(s, chatId, viewer).store;
            && StoreUnreadTotal(s', viewer) + Share(s.chats, chatId, viewer) == StoreUnreadTotal(s, viewer)
            && forall u :: u != viewer ==> StoreUnreadTotal(s', u) == StoreUnreadTotal(s, u)
  {
    var s' := GetMessages(s, chatId, viewer).store;
    var c' := s'.chats[chatId];
    assert s'.chats == s.chats[chatId := c'];
    forall u
      ensures StoreUnreadTotal(s', u) + Share(s.chats, chatId, u) == StoreUnreadTotal(s, u) + Share(s'.chats, chatId, u)
    {
      UnreadTotalUpdate(s.chats, chatId, c', u, s.nextId);
    }
  }
}

=== FILE: item_controller.dfy ===
/** The item handlers: create, read for editing, claim, resolve, update and
    delete, with their ownership checks. */
module ItemController {
  import opened Basics
  import opened ItemModel
  import opened Store

  /** The body fields the create and update forms post. */
  datatype ItemForm = ItemForm(
    title: Option<string>,
    description: Option<string>,
    location: Option<string>,
    contactInfo: Option<string>,
    kind: Option<string>)

  /** The create handler's guard: title, description, location and type are
      all truthy; contact information is optional. */
  predicate FormComplete(f: ItemForm) {
    Given(f.title) && Given(f.description) && Given(f.location) && Given(f.kind)
  }

  /** Create an item owned by the caller; `file` is the uploaded image name. */
  function CreateItem(s: Store, caller: Id, form: ItemForm, file: Option<string>): (r: Reply<Item>)
    ensures !FormComplete(form) ==> r == Reply(s, Err(BadRequest))
    ensures FormComplete(form) && !KindGiven(form.kind) ==> r == Reply(s, Err(ServerError))
    ensures FormComplete(form) && KindGiven(form.kind) ==>
      && r.result.Ok?
      && r.result.value.id == s.nextId
      && r.result.value.owner == caller
      && r.result.value.status == Pending
      && r.result.value.claims == []
      && r.result.value.image == file
      && r.result.value.title == form.title
      && r.result.value.description == form.description
      && r.result.value.location == form.location
      && r.result.value.contactInfo == form.contactInfo
      && r.result.value.kind == form.kind
      && r.store == s.(items := s.items[s.nextId := r.result.value],
                       nextId := s.nextId + 1, clock := s.clock + 1)
    ensures Valid(s) && r.result.Ok? ==> r.result.value.id !in s.items
    ensures Valid(s) ==> Valid(r.store)
  {
    if !FormComplete(form) then Reply(s, Err(BadRequest))
    else
      var it := Item(s.nextId, form.title, form.description, form.location, form.contactInfo,
                     file, form.kind, Pending, [], caller, s.clock, s.clock);
      if !ItemValid(it) then Reply(s, Err(ServerError))
      else Reply(s.(items := s.items[it.id := it], nextId := s.nextId + 1, clock := s.clock + 1), Ok(it))
  }

  /** Read one item for its edit page. The owner reference is populated
      first; when the owner's user document is gone it reads as null and the
      ownership test throws. */
  function GetSingleItem(s: Store, caller: Id, id: Id): (r: Result<Item>)
    ensures id !in s.items ==> r == Err(NotFound)
    ensures id in s.items && s.items[id].owner !in s.users ==> r == Err(ServerError)
    ensures id in s.items && s.items[id].owner in s.users ==>
      (r == Ok(s.items[id]) <==> s.items[id].owner == caller)
    ensures id in s.items && s.items[id].owner in s.users && s.items[id].owner != caller ==>
      r == Err(Forbidden)
  {
    if id !in s.items then Err(NotFound)
    else if s.items[id].owner !in s.users then Err(ServerError)
    else if s.items[id].owner != caller then Err(Forbidden)
    else Ok(s.items[id])
  }

  /** The item after a claim is pushed and its status set to matched. */
  function WithClaim(it: Item, c: Claim): Item {
    it.(claims := it.claims + [c], status := Matched)
  }

  /** Claim an item, supplying the claim message the claim schema requires. */
  function ClaimItemWithMessage(s: Store, caller: Id, id: Id, claimType: Option<string>,
                                message: Option<string>): (r: Reply<Item>)
    ensures id !in s.items ==> r == Reply(s, Err(NotFound))
    ensures id in s.items && s.items[id].owner == caller ==> r == Reply(s, Err(BadRequest))
    ensures id in s.items && s.items[id].owner != caller && ClaimedBy(s.items[id], caller) ==>
      r == Reply(s, Err(BadRequest))
    ensures id in s.items && s.items[id].owner != caller && !ClaimedBy(s.items[id], caller)
            && !(KindGiven(claimType) && Given(message)) ==>
      r == Reply(s, Err(ServerError))
    ensures Valid(s) && id in s.items && s.items[id].owner != caller && !ClaimedBy(s.items[id], caller)
            && KindGiven(claimType) && Given(message) ==>
      && r.result.Ok?
      && r.result.value.claims == s.items[id].claims + [Claim(caller, claimType, message, ClaimPending, s.clock)]
      && r.result.value.status == Matched
      && r.result.value == s.items[id].(claims := r.result.value.claims, status := Matched, updatedAt := s.clock)
      && r.store == s.(items := s.items[id := r.result.value], clock := s.clock + 1)
    ensures Valid(s) ==> Valid(r.store)
  {
    if id !in s.items then Reply(s, Err(NotFound))
    else
      var it := s.items[id];
      if it.owner == caller then Reply(s, Err(BadRequest))
      else if ClaimedBy(it, caller) then Reply(s, Err(BadRequest))
      else
        var c := Claim(caller, claimType, message, ClaimPending, s.clock);
        var claimed := WithClaim(it, c);
        assert claimed.claims[|claimed.claims| - 1] == c;
        SaveItem(s, id, claimed)
  }

  /** Claim an item as the handler is written: the body's `claimType` is
      pushed without a `message`, so the save never passes the claim schema. */
  function ClaimItem(s: Store, caller: Id, id: Id, claimType: Option<string>): (r: Reply<Item>)
    ensures r.store == s
    ensures id !in s.items ==> r.result == Err(NotFound)
    ensures id in s.items && s.items[id].owner == caller ==> r.result == Err(BadRequest)
    ensures id in s.items && s.items[id].owner != caller && ClaimedBy(s.items[id], caller) ==>
      r.result == Err(BadRequest)
    ensures id in s.items && s.items[id].owner != caller && !ClaimedBy(s.items[id], caller) ==>
      r.result == Err(ServerError)
  {
    ClaimItemWithMessage(s, caller, id, claimType, None)
  }

  /** Once a claim by `caller` is stored, any further claim by `caller` on the
      same item is refused, whatever the status of the stored claim. */
  lemma {:induction false} RepeatClaimRejected(s: Store, caller: Id, id: Id, claimType: Option<string>,
                                               message: Option<string>, claimType2: Option<string>,
                                               message2: Option<string>)
    requires ClaimItemWithMessage(s, caller, id, claimType, message).result.Ok?
    ensures var s1 := ClaimItemWithMessage(s, caller, id, claimType, message).store;
            ClaimItemWithMessage(s1, caller, id, claimType2, message2) == Reply(s1, Err(BadRequest))
  {
    var s1 := ClaimItemWithMessage(s, caller, id, claimType, message).store;
    var it := s1.items[id];
    assert it.claims[|it.claims| - 1].user == caller;
  }

  /** Resolve an item: owner only; the claims are left as they are. */
  function ResolveItem(s: Store, caller: Id, id: Id): (r: Reply<Item>)
    ensures id !in s.items ==> r == Reply(s, Err(NotFound))
    ensures id in s.items && s.items[id].owner != caller ==> r == Reply(s, Err(Forbidden))
    ensures Valid(s) && id in s.items && s.items[id].owner == caller ==>
      && r.result.Ok?
      && r.result.value.status == Resolved
      && r.result.value.claims == s.items[id].claims
      && r.result.value == s.items[id].(status := Resolved, updatedAt := r.result.value.updatedAt)
      && r.store.items == s.items[id := r.result.value]
      && r.store.(items := s.items, clock := s.clock) == s
    ensures Valid(s) ==> Valid(r.store)
  {
    if id !in s.items then Reply(s, Err(NotFound))
    else
      var it := s.items[id];
      if it.owner != caller then Reply(s, Err(Forbidden))
      else SaveItem(s, id, it.(status := Resolved))
  }

  /** Resolving an item twice is the same as resolving it once. */
  lemma ResolveItemIdempotent(s: Store, caller: Id, id: Id)
    requires Valid(s)
    requires ResolveItem(s, caller, id).result.Ok?
    ensures var r := ResolveItem(s, caller, id);
            ResolveItem(r.store, caller, id) == r
  {
    var r := ResolveItem(s, caller, id);
    assert r.store.items[id] == r.result.value;
  }

  /** Update an item: owner only. The five form fields are overwritten, a
      missing one included; the image changes only when a file is uploaded. */
  function UpdateItem(s: Store, caller: Id, id: Id, form: ItemForm, file: Option<string>): (r: Reply<Item>)
    ensures id !in s.items ==> r == Reply(s, Err(NotFound))
    ensures id in s.items && s.items[id].owner != caller ==> r == Reply(s, Err(Forbidden))
    ensures id in s.items && s.items[id].owner == caller && !KindGiven(form.kind) ==>
      r == Reply(s, Err(ServerError))
    ensures Valid(s) && id in s.items && s.items[id].owner == caller && KindGiven(form.kind) ==>
      && r.result.Ok?
      && r.result.value.title == form.title
      && r.result.value.description == form.description
      && r.result.value.location == form.location
      && r.result.value.contactInfo == form.contactInfo
      && r.result.value.kind == form.kind
      && r.result.value.image == (if file.Some? then file else s.items[id].image)
      && r.result.value.status == s.items[id].status
      && r.result.value.claims == s.items[id].claims
      && r.result.value.owner == s.items[id].owner
      && r.result.value.id == id
      && r.store.items == s.items[id := r.result.value]
      && r.store.(items := s.items, clock := s.clock) == s
    ensures Valid(s) ==> Valid(r.store)
  {
    if id !in s.items then Reply(s, Err(NotFound))
    else
      var it := s.items[id];
      if it.owner != caller then Reply(s, Err(Forbidden))
      else
        var edited := it.(title := form.title, description := form.description,
                          location := form.location, contactInfo := form.contactInfo,
                          kind := form.kind, image := if file.Some? then file else it.image);
        SaveItem(s, id, edited)
  }

  /** Delete an item: owner only; nothing else is removed. */
  function DeleteItem(s: Store, caller: Id, id: Id): (r: Reply<()>)
    ensures id !in s.items ==> r == Reply(s, Err(NotFound))
    ensures id in s.items && s.items[id].owner != caller ==> r == Reply(s, Err(Forbidden))
    ensures id in s.items && s.items[id].owner == caller ==>
      r == Reply(s.(items := s.items - {id}), Ok(()))
    ensures Valid(s) ==> Valid(r.store)
  {
    if id !in s.items then Reply(s, Err(NotFound))
    else if s.items[id].owner != caller then Reply(s, Err(Forbidden))
    else Reply(s.(items := s.items - {id}), Ok(()))
  }

  /** A lost wallet owned by user 1; user 2 says they found it. As written
      the claim is refused by the schema; with a message it is stored and the
      item becomes matched. */
  lemma ClaimScenario()
    ensures var wallet := Item(0, Some("Wallet"), Some("Black leather"), Some("Park"), None, None,
                               Some("lost"), Pending, [], 1, 0, 0);
            var s := Store(map[], map[0 := wallet], map[], map[], map[], map[], 1, 1);
            && ClaimItem(s, 2, 0, Some("found")) == Reply(s, Err(ServerError))
            && ClaimItemWithMessage(s, 2, 0, Some("found"), Some("saw it at the park")).result
               == Ok(wallet.(claims := [Claim(2, Some("found"), Some("saw it at the park"), ClaimPending, 1)],
                             status := Matched, updatedAt := 1))
  {
    var wallet := Item(0, Some("Wallet"), Some("Black leather"), Some("Park"), None, None,
                       Some("lost"), Pending, [], 1, 0, 0);
    var s := Store(map[], map[0 := wallet], map[], map[], map[], map[], 1, 1);
    assert !ClaimedBy(wallet, 2);
    assert Valid(s);
    var c := Claim(2, Some("found"), Some("saw it at the park"), ClaimPending, 1);
    assert wallet.claims + [c] == [c];
  }
}

=== FILE: matching_controller.dfy ===
/** The match-request handlers: create a request, list the requests made on
    the caller's items, and accept one. */
module MatchingController {
  import opened Basics
  import opened Collections
  import opened MatchModel
  import opened NotificationModel
  import opened Store

  const ResponseText := "Someone responded to your item"
  const DashboardLink := "/dashboard"

  /** The duplicate check `findOne({ itemId, userId, type })` finds a match. */
  predicate HasRequest(s: Store, itemId: Id, userId: Id, kind: string) {
    exists k :: k in s.matches && SameRequest(s.matches[k], itemId, userId, kind)
  }

  /** `Match.create`: a pending request under a fresh id, if the schema takes it. */
  function StoreMatch(s: Store, caller: Id, itemId: Id, kind: string): Store {
    var m := Match(s.nextId, itemId, caller, kind, MatchPending, s.clock, s.clock);
    s.(matches := s.matches[m.id := m], nextId := s.nextId + 1, clock := s.clock + 1)
  }

  /** Create a match request as the handler is written. A duplicate of the
      (item, caller, type) triple is refused; otherwise the request is stored,
      and then the owner notification reads a variable `item` that is never
      bound, so the handler answers 500 with the request kept and no
      notification sent. */
  function CreateMatch(s: Store, caller: Id, itemId: Id, kind: string): (r: Reply<Match>)
    ensures HasRequest(s, itemId, caller, kind) ==> r == Reply(s, Err(BadRequest))
    ensures !HasRequest(s, itemId, caller, kind) && !IsKind(kind) ==> r == Reply(s, Err(ServerError))
    ensures !HasRequest(s, itemId, caller, kind) && IsKind(kind) ==>
      && r.result == Err(ServerError)
      && r.store == s.(matches := s.matches[s.nextId := Match(s.nextId, itemId, caller, kind, MatchPending,
                                                              s.clock, s.clock)],
                       nextId := s.nextId + 1, clock := s.clock + 1)
    ensures r.store.notifications == s.notifications && r.store.items == s.items
    ensures Valid(s) ==> Valid(r.store)
  {
    if HasRequest(s, itemId, caller, kind) then Reply(s, Err(BadRequest))
    else if !IsKind(kind) then Reply(s, Err(ServerError))
    else Reply(StoreMatch(s, caller, itemId, kind), Err(ServerError))
  }

  /** The request a failed `CreateMatch` left behind makes a retry of the same
      request a duplicate. */
  lemma RetryAfterFailedCreateIsDuplicate(s: Store, caller: Id, itemId: Id, kind: string)
    requires !HasRequest(s, itemId, caller, kind) && IsKind(kind)
    ensures var s' := CreateMatch(s, caller, itemId, kind).store;
            CreateMatch(s', caller, itemId, kind) == Reply(s', Err(BadRequest))
  {
    var s' := CreateMatch(s, caller, itemId, kind).store;
    assert SameRequest(s'.matches[s.nextId], itemId, caller, kind);
  }

  /** The duplicate key includes the type: a request of one type never makes
      a request of the other type a duplicate. */
  lemma TypeIsPartOfTheKey(s: Store, caller: Id, itemId: Id, kind: string, other: string)
    requires kind != other
    requires !HasRequest(s, itemId, caller, other)
    ensures !HasRequest(CreateMatch(s, caller, itemId, kind).store, itemId, caller, other)
  {
  }

  /** The schema has no unique index: a well-formed database may hold a second
      request with the same item, requester and type. */
  lemma NoUniqueIndex(s: Store, k: Id)
    requires Valid(s) && k in s.matches
    ensures var m := s.matches[k];
            var s' := s.(matches := s.matches[s.nextId := m.(id := s.nextId)], nextId := s.nextId + 1);
            && Valid(s')
            && s.nextId != k
            && SameRequest(s'.matches[s.nextId], m.itemId, m.userId, m.kind)
            && SameRequest(s'.matches[k], m.itemId, m.userId, m.kind)
  {
    var m := s.matches[k];
    var s' := s.(matches := s.matches[s.nextId := m.(id := s.nextId)], nextId := s.nextId + 1);
    assert MatchesValid(s');
  }

  /** Create a match request as evidently intended: the item is loaded, a
      missing item is refused, and the stored request is followed by one
      notification to the item's owner. */
  function CreateMatchNotifyingOwner(s: Store, caller: Id, itemId: Id, kind: string): (r: Reply<Match>)
    ensures HasRequest(s, itemId, caller, kind) ==> r == Reply(s, Err(BadRequest))
    ensures !HasRequest(s, itemId, caller, kind) && itemId !in s.items ==> r == Reply(s, Err(NotFound))
    ensures !HasRequest(s, itemId, caller, kind) && itemId in s.items && !IsKind(kind) ==>
      r == Reply(s, Err(ServerError))
    ensures !HasRequest(s, itemId, caller, kind) && itemId in s.items && IsKind(kind) ==>
      && r.result == Ok(Match(s.nextId, itemId, caller, kind, MatchPending, s.clock, s.clock))
      && r.store.matches == s.matches[s.nextId := r.result.value]
      && r.store.notifications == s.notifications[s.nextId + 1 :=
           Notification(s.nextId + 1, s.items[itemId].owner, ResponseText, DashboardLink, false, s.clock + 1)]
      && r.store.items == s.items
      && r.store.users == s.users && r.store.chats == s.chats && r.store.messages == s.messages
    ensures Valid(s) ==> Valid(r.store)
  {
    if HasRequest(s, itemId, caller, kind) then Reply(s, Err(BadRequest))
    else if itemId !in s.items then Reply(s, Err(NotFound))
    else if !IsKind(kind) then Reply(s, Err(ServerError))
    else
      var s1 := StoreMatch(s, caller, itemId, kind);
      Reply(Notify(s1, s.items[itemId].owner, ResponseText, DashboardLink), Ok(s1.matches[s.nextId]))
  }

  /** The filter `{ itemId: { $in: ids } }` over the ids of the caller's items. */
  function OnItemsOf(owned: set<Id>): Match -> bool {
    (m: Match) => m.itemId in owned
  }

  /** The request is on an item that `owner` owns. */
  predicate OnOwnedItem(s: Store, owner: Id, m: Match) {
    m.itemId in s.items && s.items[m.itemId].owner == owner
  }

  /** The requests made on items the caller owns, in natural order. */
  function GetMyItemMatches(s: Store, caller: Id): (r: seq<Match>)
    ensures forall i :: 0 <= i < |r| ==> r[i] in s.matches.Values && OnOwnedItem(s, caller, r[i])
    ensures Valid(s) ==> forall k :: k in s.matches && OnOwnedItem(s, caller, s.matches[k]) ==> s.matches[k] in r
    ensures Valid(s) ==> Distinct(r)
  {
    var owned := set k | k in s.items && s.items[k].owner == caller;
    Select(s.matches, s.nextId, OnItemsOf(owned))
  }

  /** Accept a request: any caller may, the item and its claims are not
      touched, and accepting an accepted request changes nothing. */
  function AcceptMatch(s: Store, caller: Id, id: Id): (r: Reply<Match>)
    ensures id !in s.matches ==> r == Reply(s, Err(NotFound))
    ensures Valid(s) && id in s.matches ==>
      && r.result.Ok?
      && r.result.value.status == MatchAccepted
      && r.result.value == s.matches[id].(status := MatchAccepted, updatedAt := r.result.value.updatedAt)
      && r.store.matches == s.matches[id := r.result.value]
      && r.store.(matches := s.matches, clock := s.clock) == s
    ensures Valid(s) ==> Valid(r.store)
  {
    if id !in s.matches then Reply(s, Err(NotFound))
    else SaveMatch(s, id, s.matches[id].(status := MatchAccepted))
  }

  lemma AcceptMatchIdempotent(s: Store, caller: Id, other: Id, id: Id)
    requires Valid(s)
    requires AcceptMatch(s, caller, id).result.Ok?
    ensures var r := AcceptMatch(s, caller, id);
            AcceptMatch(r.store, other, id) == r
  {
    var r := AcceptMatch(s, caller, id);
    assert r.store.matches[id] == r.result.value;
  }
}

=== FILE: models.dfy ===
/** The item schema with its embedded claim schema. A document's fields hold
    what the request supplied, so a document the schema would refuse can be
    built; `ItemValid` is the schema, checked when the document is saved. */
module ItemModel {
  import opened Basics

  datatype ItemStatus = Pending | Matched | Resolved

  datatype ClaimStatus = ClaimPending | ClaimApproved | ClaimRejected

  datatype Claim = Claim(
    user: Id,
    claimType: Option<string>,
    message: Option<string>,
    status: ClaimStatus,
    createdAt: nat)

  /** Claim schema: `claimType` required and lost/found, `message` required. */
  predicate ClaimValid(c: Claim) {
    KindGiven(c.claimType) && Given(c.message)
  }

  /** `claims` keeps submission order; `owner` is the required `userId`. */
  datatype Item = Item(
    id: Id,
    title: Option<string>,
    description: Option<string>,
    location: Option<string>,
    contactInfo: Option<string>,
    image: Option<string>,
    kind: Option<string>,
    status: ItemStatus,
    claims: seq<Claim>,
    owner: Id,
    createdAt: nat,
    updatedAt: nat)

  /** Item schema: `type` required and lost/found, every embedded claim valid. */
  predicate ItemValid(it: Item) {
    KindGiven(it.kind) && forall i :: 0 <= i < |it.claims| ==> ClaimValid(it.claims[i])
  }

  /** An item carrying a claim without a message, or with an unknown claim
      type, fails the schema, whatever its other claims. */
  lemma InvalidClaimFailsItem(it: Item, c: Claim)
    requires !KindGiven(c.claimType) || !Given(c.message)
    ensures !ItemValid(it.(claims := it.claims + [c]))
  {
    assert (it.claims + [c])[|it.claims|] == c;
  }

  /** Some claim on the item, whatever its status, was made by `u`. */
  predicate ClaimedBy(it: Item, u: Id) {
    exists i :: 0 <= i < |it.claims| && it.claims[i].user == u
  }
}

/** The chat schema and the message fields the chat handlers use. */
module ChatModel {
  import opened Basics

  /** `participants` is ordered as created; `unreadCounts` maps a user id to
      that user's count of messages not yet viewed. */
  datatype Chat = Chat(
    id: Id,
    itemId: Id,
    participants: seq<Id>,
    lastMessage: Option<string>,
    unreadCounts: map<Id, nat>,
    createdAt: nat,
    updatedAt: nat)

  datatype Message = Message(id: Id, chatId: Id, sender: Id, text: string, createdAt: nat)

  /** A user's unread count in a chat, a missing entry reading as 0. */
  function Unread(c: Chat, u: Id): nat {
    if u in c.unreadCounts then c.unreadCounts[u] else 0
  }

  /** The chat concerns `itemId` and lists both users, in any order. */
  predicate Joins(c: Chat, itemId: Id, a: Id, b: Id) {
    c.itemId == itemId && a in c.participants && b in c.participants
  }

  /** Index of the first participant who is not `sender`; `|ps|` if none is. */
  function FirstOther(ps: seq<Id>, sender: Id): (i: nat)
    ensures i <= |ps|
    ensures forall j :: 0 <= j < i ==> ps[j] == sender
    ensures i < |ps| ==> ps[i] != sender
  {
    if ps == [] || ps[0] != sender then 0 else 1 + FirstOther(ps[1..], sender)
  }
}

/** The match schema: a claim request kept apart from the item's claims. */
module MatchModel {
  import opened Basics

  datatype MatchStatus = MatchPending | MatchAccepted

  datatype Match = Match(
    id: Id,
    itemId: Id,
    userId: Id,
    kind: string,
    status: MatchStatus,
    createdAt: nat,
    updatedAt: nat)

  /** Match schema: `type` is lost/found. There is no unique index. */
  predicate MatchValid(m: Match) {
    IsKind(m.kind)
  }

  /** The key the duplicate check compares: item, requester and type. */
  predicate SameRequest(m: Match, itemId: Id, userId: Id, kind: string) {
    m.itemId == itemId && m.userId == userId && m.kind == kind
  }
}

/** The notification fields the handlers read and write. */
module NotificationModel {
  import opened Basics

  datatype Notification = Notification(
    id: Id,
    userId: Id,
    message: string,
    link: string,
    isRead: bool,
    createdAt: nat)
}

=== FILE: notification_routes.dfy ===
/** The notification handlers: list the caller's unread notifications, mark
    one read, and create one. */
module NotificationRoutes {
  import opened Basics
  import opened Collections
  import opened NotificationModel
  import opened Store

  const DefaultLink := "/dashboard"

  /** The filter `{ userId: u, isRead: false }`. */
  function UnreadFor(u: Id): Notification -> bool {
    (n: Notification) => n.userId == u && !n.isRead
  }

  /** The caller's unread notifications, newest first. */
  function ListUnread(s: Store, caller: Id): (r: seq<Notification>)
    ensures forall i :: 0 <= i < |r| ==> r[i] in s.notifications.Values && r[i].userId == caller && !r[i].isRead
    ensures Valid(s) ==> forall k :: k in s.notifications && UnreadFor(caller)(s.notifications[k]) ==>
      s.notifications[k] in r
    ensures forall i, j :: 0 <= i < j < |r| ==> r[i].createdAt >= r[j].createdAt
    ensures Valid(s) ==> Distinct(r)
  {
    SortDesc(Select(s.notifications, s.nextId, UnreadFor(caller)), (n: Notification) => n.createdAt)
  }

  /** Mark a notification read. Any caller may mark any notification, and an
      unknown id is reported as success too. */
  function MarkRead(s: Store, caller: Id, id: Id): (r: Reply<()>)
    ensures r.result == Ok(())
    ensures id !in s.notifications ==> r.store == s
    ensures id in s.notifications ==>
      && id in r.store.notifications
      && r.store.notifications[id].isRead
      && r.store.notifications[id] == s.notifications[id].(isRead := true)
      && r.store == s.(notifications := s.notifications[id := r.store.notifications[id]])
    ensures Valid(s) ==> Valid(r.store)
  {
    if id !in s.notifications then Reply(s, Ok(()))
    else Reply(s.(notifications := s.notifications[id := s.notifications[id].(isRead := true)]), Ok(()))
  }

  /** Marking twice is the same as marking once, by the same or another caller. */
  lemma MarkReadIdempotent(s: Store, a: Id, b: Id, id: Id)
    ensures var r := MarkRead(s, a, id);
            MarkRead(r.store, b, id) == r
  {
    if id in s.notifications {
      var r := MarkRead(s, a, id);
      assert r.store.notifications[id := r.store.notifications[id].(isRead := true)] == r.store.notifications;
    }
  }

  /** Once marked, a notification is gone from its owner's unread list, and
      the rest of that list is unchanged. */
  lemma MarkReadLeavesUnreadList(s: Store, caller: Id, id: Id)
    requires Valid(s)
    requires id in s.notifications
    ensures var s' := MarkRead(s, caller, id).store;
            var owner := s.notifications[id].userId;
            && (forall i :: 0 <= i < |ListUnread(s', owner)| ==> ListUnread(s', owner)[i].id != id)
            && (forall k :: k in s.notifications && k != id && UnreadFor(owner)(s.notifications[k]) ==>
                  s.notifications[k] in ListUnread(s', owner))
  {
    var s' := MarkRead(s, caller, id).store;
    var owner := s.notifications[id].userId;
    forall k | k in s.notifications && k != id && UnreadFor(owner)(s.notifications[k])
      ensures s.notifications[k] in ListUnread(s', owner)
    {
      assert s'.notifications[k] == s.notifications[k];
    }
  }

  /** Create a notification. `userId` and `message` are required; the link
      defaults to the dashboard; a new notification is unread. */
  function CreateNotification(s: Store, userId: Option<Id>, message: Option<string>,
                              link: Option<string>): (r: Reply<Notification>)
    ensures userId.None? || !Given(message) ==> r == Reply(s, Err(BadRequest))
    ensures userId.Some? && Given(message) ==>
      && r.result.Ok?
      && r.result.value.id == s.nextId
      && r.result.value.userId == userId.value
      && r.result.value.message == message.value
      && r.result.value.link == (if Given(link) then link.value else DefaultLink)
      && !r.result.value.isRead
      && r.store == s.(notifications := s.notifications[s.nextId := r.result.value],
                       nextId := s.nextId + 1, clock := s.clock + 1)
    ensures Valid(s) && r.result.Ok? ==> r.result.value.id !in s.notifications
    ensures Valid(s) ==> Valid(r.store)
  {
    if userId.None? || !Given(message) then Reply(s, Err(BadRequest))
    else
      var s' := Notify(s, userId.value, message.value, if Given(link) then link.value else DefaultLink);
      Reply(s', Ok(s'.notifications[s.nextId]))
  }

  /** A created notification shows in its recipient's unread list. */
  lemma CreatedNotificationIsListed(s: Store, userId: Option<Id>, message: Option<string>, link: Option<string>)
    requires Valid(s)
    requires CreateNotification(s, userId, message, link).result.Ok?
    ensures var r := CreateNotification(s, userId, message, link);
            r.result.value in ListUnread(r.store, userId.value)
  {
  }
}

=== FILE: store.dfy ===
/** The whole database as one value. Every collection is keyed by id; ids
    come from `nextId` and timestamps from `clock`, and each write takes the
    current value and advances the counter. */
module Store {
  import opened Basics
  import opened ItemModel
  import opened ChatModel
  import opened MatchModel
  import opened NotificationModel

  datatype User = User(id: Id, name: string, email: string, password: string, role: string)

  datatype Store = Store(
    users: map<Id, User>,
    items: map<Id, Item>,
    chats: map<Id, Chat>,
    messages: map<Id, Message>,
    notifications: map<Id, Notification>,
    matches: map<Id, Match>,
    nextId: nat,
    clock: nat)

  /** A handler's outcome: the database after the handler ran and its answer.
      A failing handler can leave writes behind, so both are kept. */
  datatype Reply<T> = Reply(store: Store, result: Result<T>)

  predicate ItemsValid(s: Store) {
    forall k :: k in s.items ==>
      s.items[k].id == k && k < s.nextId && ItemValid(s.items[k]) && s.items[k].updatedAt < s.clock
  }

  predicate ChatsValid(s: Store) {
    forall k :: k in s.chats ==> s.chats[k].id == k && k < s.nextId && s.chats[k].updatedAt < s.clock
  }

  predicate MessagesValid(s: Store) {
    forall k :: k in s.messages ==> s.messages[k].id == k && k < s.nextId
  }

  predicate NotificationsValid(s: Store) {
    forall k :: k in s.notifications ==> s.notifications[k].id == k && k < s.nextId
  }

  predicate MatchesValid(s: Store) {
    forall k :: k in s.matches ==>
      s.matches[k].id == k && k < s.nextId && MatchValid(s.matches[k]) && s.matches[k].updatedAt < s.clock
  }

  /** Users are created outside the modelled handlers; all that is known of
      them is that each sits under its own `_id`. */
  predicate UsersValid(s: Store) {
    forall k :: k in s.users ==> s.users[k].id == k
  }

  /** What every reachable database satisfies: each document sits under its
      own id; ids of items, chats, messages, notifications and matches are
      below the counter; the `updatedAt` of every item, chat and match is in
      the past; and every stored item and match passed its schema. */
  predicate Valid(s: Store) {
    && UsersValid(s)
    && ItemsValid(s)
    && ChatsValid(s)
    && MessagesValid(s)
    && NotificationsValid(s)
    && MatchesValid(s)
  }

  /** `item.save()`: a document that fails the schema is not written and the
      handler answers 500; an unmodified document is not written; otherwise it
      is written with a fresh `updatedAt`. */
  function SaveItem(s: Store, id: Id, it: Item): Reply<Item>
    requires id in s.items
  {
    if !ItemValid(it) then Reply(s, Err(ServerError))
    else if it == s.items[id] then Reply(s, Ok(it))
    else
      var saved := it.(updatedAt := s.clock);
      Reply(s.(items := s.items[id := saved], clock := s.clock + 1), Ok(saved))
  }

  /** `match.save()`, with the same rules as `SaveItem`. */
  function SaveMatch(s: Store, id: Id, m: Match): Reply<Match>
    requires id in s.matches
  {
    if !MatchValid(m) then Reply(s, Err(ServerError))
    else if m == s.matches[id] then Reply(s, Ok(m))
    else
      var saved := m.(updatedAt := s.clock);
      Reply(s.(matches := s.matches[id := saved], clock := s.clock + 1), Ok(saved))
  }

  /** `chat.save()`: the chat schema has no required field, so only the
      modified check applies. */
  function SaveChat(s: Store, id: Id, c: Chat): Store
    requires id in s.chats
  {
    if c == s.chats[id] then s
    else s.(chats := s.chats[id := c.(updatedAt := s.clock)], clock := s.clock + 1)
  }

  /** `Notification.create`: a new unread notification under a fresh id. */
  function Notify(s: Store, userId: Id, message: string, link: string): (r: Store)
  {
    var n := Notification(s.nextId, userId, message, link, false, s.clock);
    s.(notifications := s.notifications[n.id := n], nextId := s.nextId + 1, clock := s.clock + 1)
  }

  /** `Message.create`: a new message under a fresh id. */
  function PostMessage(s: Store, chatId: Id, sender: Id, text: string): Store {
    var m := Message(s.nextId, chatId, sender, text, s.clock);
    s.(messages := s.messages[m.id := m], nextId := s.nextId + 1, clock := s.clock + 1)
  }

  lemma PostMessageKeepsValid(s: Store, chatId: Id, sender: Id, text: string)
    requires Valid(s)
    ensures Valid(PostMessage(s, chatId, sender, text))
  {
    var s' := PostMessage(s, chatId, sender, text);
    assert ItemsValid(s') && ChatsValid(s') && NotificationsValid(s') && MatchesValid(s');
  }

  lemma NotifyKeepsValid(s: Store, userId: Id, message: string, link: string)
    requires Valid(s)
    ensures Valid(Notify(s, userId, message, link))
  {
    var s' := Notify(s, userId, message, link);
    assert ItemsValid(s') && ChatsValid(s') && MessagesValid(s') && MatchesValid(s');
  }

  lemma SaveChatKeepsValid(s: Store, id: Id, c: Chat)
    requires Valid(s) && id in s.chats && c.id == id
    ensures Valid(SaveChat(s, id, c))
  {
    var s' := SaveChat(s, id, c);
    assert ItemsValid(s') && MessagesValid(s') && NotificationsValid(s') && MatchesValid(s');
  }
}
